=== FILE: README.md ===
# coinbase-charts breakout scoring, modelled in Dafny

The library half of coinbase-charts ranks crypto trading pairs by a
"breakout confidence". It has three parts:

- `lib/patternAnalysis.ts` analyses one symbol. It draws simulated volume,
  indicator and market signals. It combines them with a social score into a
  breakout probability, momentum per timeframe, price levels and an overall
  confidence. It also writes an ordered list of reasoning lines.
  `getTopBreakoutCandidates` analyses ten fixed pairs and sorts them by
  confidence, highest first, keeping at most ten.
- `lib/socialSentiment.ts` simulates a seven-day mention history. From it
  come a volume change, a mention-weighted sentiment and a clamped trending
  score. These fold into a 0–100 social breakout score.
- `lib/coinbasePairs.ts` reduces the exchange's product list to `BASE-USD`
  identifiers of online dollar pairs. Any failure gives an empty list.

Every `Math.random()` call becomes an explicit parameter, a real in [0, 1).
The draws are grouped per stage: `VolumeDraws`, `IndicatorDraws`,
`MarketDraws`, `DayDraws`, `BreakoutDraws`, `PatternDraws`, gathered in
`Simulation`. The clock is a parameter too. Once the draws are parameters,
the whole pipeline is a set of pure functions over reals and sequences.

Files:

- `basics.dfy` holds the draw predicate, the clamp and two scaling lemmas.
- `social_sentiment.dfy` models the mention feed and its metrics.
- `pattern_analysis.dfy` models the per-symbol pipeline.
- `stable_sort.dfy` is a generic stable descending sort and its top-n prefix.
- `breakout_ranker.dfy` models `getTopBreakoutCandidates`.
- `coinbase_pairs.dfy` models `fetchTradingPairs`.

Facts about the code that the model makes explicit:

- The confidence formula is not capped at 100: in-range signals can score
  110.325 (`ConfidenceCanExceedHundred`). 118 is an upper bound of the
  formula, not a value the pipeline reaches.
- The breakout probability stays below 120, not below 100.
- The stop-loss band [85, 95) overlaps the support band [90, 110), so the
  stop-loss can sit above support (`StopLossCanExceedSupport`).
- The code has no candle-based pattern detection, no candle fetching and no
  retry logic. The four pattern flags are independent draws against fixed
  thresholds, and nothing downstream reads them (`PatternsFeedNothing`).
- The momentum bands are half-open, `[0.8p, 1.2p)` and so on. When the
  probability is 0 every band collapses to {0}, so the strict upper bound
  holds only for p > 0.

## Model

| member | source | states |
|---|---|---|
| Basics.Clamp | lib/socialSentiment.ts:59-67 | `min(hi, max(lo, x))` lies in [lo, hi], equals x inside the range and the nearer bound outside it |
| SocialSentiment.DayVolume | lib/socialSentiment.ts:24-29 | each day's mention count, base × multiplier × recency boost floored, lies in [428, 3750) for any draws |
| SocialSentiment.Share | lib/socialSentiment.ts:32-33 | a floored share of the day's volume lies above volume × lo − 1 and at most at volume × (lo + width), so it is never negative |
| SocialSentiment.Day | lib/socialSentiment.ts:23-42 | each generated day splits its positive total into non-negative positive, negative and neutral counts that sum to the total, stamped `now − i·86 400 000`; up to the rounding down, 30–50% of the total is positive and 20–35% negative |
| SocialSentiment.GenerateHistory | lib/socialSentiment.ts:20-43 | the history has exactly 7 well-formed days, index 0 is today, and timestamps strictly decrease with the index |
| SocialSentiment.WeightedSentimentIsRatio | lib/socialSentiment.ts:51-56 | the `reduce` weighting each day's sentiment by its share of all mentions equals Σ(pos − neg) / Σtotal |
| SocialSentiment.NetWithinTotal | lib/socialSentiment.ts:51-56 | over well-formed days, net mentions lie between −total and total, and a non-empty history has a positive total |
| SocialSentiment.VolumeChange | lib/socialSentiment.ts:46-48 | the change times the oldest volume is 100 × (recent − oldest); it is at least −100 and positive exactly when volume grew |
| SocialSentiment.WeightedSentiment | lib/socialSentiment.ts:50-56 | the weighted sentiment is net mentions over all mentions, and lies in [−1, 1] when every day is well formed |
| SocialSentiment.TrendingScore | lib/socialSentiment.ts:58-67 | the trending score lies in [0, 100]; it is the raw volume/sentiment/volume formula when that is in range, else 0 or 100 |
| SocialSentiment.SocialMetricsOf | lib/socialSentiment.ts:45-75 | metrics keep the history, take today's volume as mention volume, relate volume change to days 0 and 6, bound the sentiment, and give the trending score as the clamped combination of the record's own volume change, sentiment and mention volume |
| SocialSentiment.GenerateSocialData | lib/socialSentiment.ts:18-76 | for any draws, the feed has 7 well-formed days with the stated timestamps, sentiment in [−1, 1] and trending score in [0, 100] |
| SocialSentiment.SocialBreakoutScore | lib/socialSentiment.ts:88-95 | with sentiment in [−1, 1] and trending in [0, 100] the score lies in [0, 100]; the volume term adds between 0 and 40 to the sentiment and trending terms |
| SocialSentiment.SocialBreakoutScoreMonotone | lib/socialSentiment.ts:88-95 | raising volume change, sentiment or trending score never lowers the social breakout score |
| SocialSentiment.GeneratedSocialScoreInRange | lib/socialSentiment.ts:88-95 | the generated feed always scores within [0, 100] |
| PatternAnalysis.AnalyzeVolume | lib/patternAnalysis.ts:82-89 | the volume score lies in [0, 100); the anomaly and whale flags and the tiered trend hold exactly on their draw thresholds |
| PatternAnalysis.MacdTrend | lib/patternAnalysis.ts:98 | the MACD trend is bullish iff RSI < 40, bearish iff RSI > 60, neutral otherwise |
| PatternAnalysis.AnalyzeTechnicalIndicators | lib/patternAnalysis.ts:91-108 | RSI lies in [30, 70), the MACD trend follows the RSI, histogram and signal lie in [−1, 1), the averages lie in their bands, and the cross flags hold exactly on their thresholds |
| PatternAnalysis.AnalyzeMarketConditions | lib/patternAnalysis.ts:110-116 | trend strength lies in [0, 100); sentiment is bullish and volatility high exactly when their first draws exceed 0.6, and bearish and low exactly when neither the first draw exceeds 0.6 nor the fallback draw exceeds 0.3 |
| PatternAnalysis.BaseProbability | lib/patternAnalysis.ts:124-131 | the weighted probability is non-negative for non-negative inputs and below 120 for in-range signals |
| PatternAnalysis.OversoldWorthThirtyFive | lib/patternAnalysis.ts:124-131 | when the MACD follows the RSI, oversold conditions add 35 points of probability and otherwise none |
| PatternAnalysis.Momentum | lib/patternAnalysis.ts:136-138 | for p ≥ 0 the momentum lies between low·p and (low + 0.4)·p, strictly below the upper end when p > 0 |
| PatternAnalysis.CalculateBreakoutProbability | lib/patternAnalysis.ts:118-150 | for p ≥ 0, daily, six-hour and hourly momentum lie in [0.8p, 1.2p], [0.7p, 1.1p] and [0.6p, p], strictly below the upper end when p > 0; support < resistance; stop-loss < resistance; conservative < moderate < aggressive; risk/reward in [2, 5) |
| PatternAnalysis.StopLossCanExceedSupport | lib/patternAnalysis.ts:140-142 | some draws put the stop-loss above the support level |
| PatternAnalysis.Reverse | lib/patternAnalysis.ts:162 | reversal keeps the length and puts element i at position n − 1 − i |
| PatternAnalysis.FormatSocialData | lib/patternAnalysis.ts:152-164 | the four metrics are copied; the weekly trend has the history's length in reverse order, each point with its day's timestamp, total mentions and (pos − neg)/total sentiment |
| PatternAnalysis.WeeklyTrendChronological | lib/patternAnalysis.ts:158-162 | a history with falling timestamps (newest first) becomes a weekly trend with rising timestamps (oldest first) |
| PatternAnalysis.WeeklyTrendSentimentInRange | lib/patternAnalysis.ts:161 | over well-formed days every point's sentiment lies in [−1, 1] |
| PatternAnalysis.GeneratedWeeklyTrend | lib/patternAnalysis.ts:152-164 | for the generated feed the weekly trend has 7 points in chronological order ending at today's volume, each sentiment in [−1, 1] |
| PatternAnalysis.AllReasons | lib/patternAnalysis.ts:176-205 | the ten candidate lines, ranked 0 to 9 in the order the `if` chain tests them |
| PatternAnalysis.Select | lib/patternAnalysis.ts:174-207 | selection keeps only triggered candidates, never grows the list and keeps rank order |
| PatternAnalysis.SelectedIffTriggered | lib/patternAnalysis.ts:174-207 | a candidate appears in the selection exactly when its condition holds |
| PatternAnalysis.GenerateReasoning | lib/patternAnalysis.ts:166-208 | at most 10 lines, in the fixed rank order, each triggered, and each candidate present iff its condition holds |
| PatternAnalysis.ReasoningConditions | lib/patternAnalysis.ts:176-205 | line by line, each reason appears exactly when its `if` condition holds; the volume-surge line carries the current volume change |
| PatternAnalysis.RankGap | lib/patternAnalysis.ts:174-207 | in a rank-ordered list, ranks grow at least as fast as positions |
| PatternAnalysis.AdjacentRanks | lib/patternAnalysis.ts:174-207 | two present lines with consecutive ranks sit next to each other |
| PatternAnalysis.RsiLineThenMacdLine | lib/patternAnalysis.ts:182-187 | when the oversold and bullish-MACD lines appear together or not at all, the MACD line directly follows the RSI line |
| PatternAnalysis.MessagesDistinct | lib/patternAnalysis.ts:176-205 | two reasoning lines of different rank render to different strings, whatever text `toFixed(1)` produces for the volume change |
| PatternAnalysis.RenderedLinesDistinct | lib/patternAnalysis.ts:166-208 | a reasoning list in emission order renders to pairwise different strings |
| PatternAnalysis.RenderedReasoning | lib/patternAnalysis.ts:166-208 | the returned `string[]` holds no string twice, and each of the ten texts is in it exactly when the condition behind its line holds |
| PatternAnalysis.OversoldAndBullishTogether | lib/patternAnalysis.ts:182-187 | because MACD is bullish iff RSI < 40, the oversold line and the bullish-MACD line appear together, the MACD line right after, or neither appears |
| PatternAnalysis.PatternsFeedNothing | lib/patternAnalysis.ts:225-244 | two analyses whose draws differ only in the four pattern draws have the same breakout analysis, confidence and reasoning: the flags are reported and weigh in nowhere |
| PatternAnalysis.Confidence | lib/patternAnalysis.ts:233-241 | the confidence is non-negative for non-negative inputs and below 118 for in-range signals |
| PatternAnalysis.ConfidenceVersusProbability | lib/patternAnalysis.ts:233-241 | confidence fed with the probability equals 0.9p + 0.025·volume score + 3.75 per bullish MACD and golden cross, so it is at least 0.9p |
| PatternAnalysis.ConfidenceCanExceedHundred | lib/patternAnalysis.ts:233-241 | in-range signals give a confidence of 110.325, above 100 |
| PatternAnalysis.AnalyzePatterns | lib/patternAnalysis.ts:210-257 | one analysis keeps its symbol, MACD follows RSI, probability in [0, 120), confidence in [0, 118) and ≥ 0.9·probability, at most 10 rank-ordered reasons, each present exactly when its condition holds on the returned volume, indicators, market, breakout and social fields, with the RSI and MACD lines together, a 7-point weekly trend, in-range social scores, and the pattern flags that the four draws give against 0.7, 0.8, 0.75 and 0.85 |
| StableSort.Insert | lib/patternAnalysis.ts:264-265 | inserting into a descending sequence keeps it descending and adds exactly that element |
| StableSort.InsertStable | lib/patternAnalysis.ts:264-265 | insertion puts the new element at the head of its key's subsequence and leaves the others unchanged |
| StableSort.SortDesc | lib/patternAnalysis.ts:264-265 | the sort result is a permutation of the input in non-increasing key order |
| StableSort.SortDescStable | lib/patternAnalysis.ts:264-265 | the sort is stable: elements sharing a key keep their input order |
| StableSort.WithKeyOfPrefix | lib/patternAnalysis.ts:266 | a prefix of a sequence cuts each same-key subsequence to a prefix |
| StableSort.PrefixDominates | lib/patternAnalysis.ts:264-266 | in a descending sequence nothing after a cut has a larger key than anything before it |
| StableSort.PrefixSplit | lib/patternAnalysis.ts:266 | a prefix and its suffix split the sequence's multiset, so what the prefix leaves out is in the suffix |
| StableSort.TopByKey | lib/patternAnalysis.ts:264-266 | the kept prefix has min(n, length) elements in descending key order, drawn from the input, all of it when the input is short, and no dropped element outranks a kept one |
| StableSort.TopByKeyStable | lib/patternAnalysis.ts:264-266 | the kept elements of each key are the earliest ones of that key, in input order |
| StableSort.SameMembers | lib/patternAnalysis.ts:264-266 | sequences with equal multisets hold the same elements |
| StableSort.ReorderKeepsLabels | lib/patternAnalysis.ts:260-266 | a permutation of a sequence tagged with given labels carries exactly those labels |
| StableSort.ReorderKeepsProperty | lib/patternAnalysis.ts:260-266 | a permutation keeps any property every element has |
| BreakoutRanker.TopCandidates | lib/patternAnalysis.ts:264-266 | at most ten analyses, non-increasing in confidence, drawn from the input, all of it when there are at most ten, none dropped above a kept one |
| BreakoutRanker.TopCandidatesStable | lib/patternAnalysis.ts:264-266 | equal-confidence analyses keep their input order |
| BreakoutRanker.AnalyzeAll | lib/patternAnalysis.ts:261 | one analysis per symbol, in order, carrying that symbol, each with a confidence in [0, 118) |
| BreakoutRanker.RankSymbols | lib/patternAnalysis.ts:261-266 | ranking a symbol list keeps min(10, n) analyses in non-increasing confidence, drawn from the analyses, all of them when there are at most ten |
| BreakoutRanker.RankCoversSymbols | lib/patternAnalysis.ts:261-266 | with at most ten symbols the ranking carries exactly the given symbols, each confidence in [0, 118) |
| BreakoutRanker.GetTopBreakoutCandidates | lib/patternAnalysis.ts:259-267 | the ranking of the ten fixed pairs is a permutation of their analyses in non-increasing confidence |
| BreakoutRanker.TopCoversAllPairs | lib/patternAnalysis.ts:259-267 | the ranking carries exactly the ten fixed pairs, and every confidence lies in [0, 118) |
| CoinbasePairs.UsdPairs | lib/coinbasePairs.ts:17-22 | there are no more identifiers than products, and each ends with `-USD` |
| CoinbasePairs.UsdPairsMembers | lib/coinbasePairs.ts:17-22 | an identifier is in the output exactly when some online USD product has it as `base-quote` |
| CoinbasePairs.UsdPairsAppend | lib/coinbasePairs.ts:17-22 | the filter works product by product, so input order is kept and each qualifying product gives exactly one entry |
| CoinbasePairs.UsdPairsSingle | lib/coinbasePairs.ts:18-22 | one product contributes its identifier iff its quote currency is USD and its status is online |
| CoinbasePairs.UsdPairsIgnoresId | lib/coinbasePairs.ts:22 | products differing only in `id` give the same identifiers |
| CoinbasePairs.UsdPairsExample | lib/coinbasePairs.ts:17-22 | an online BTC-USD, an online ETH-EUR and an offline DOGE-USD give exactly `["BTC-USD"]` |
| CoinbasePairs.FetchTradingPairs | lib/coinbasePairs.ts:8-29 | a network failure, a non-ok response or an unreadable body gives the empty list; a good response gives its USD pairs; every entry ends with `-USD` |

## Left out

- The React and TradingView files under `app/` (`CryptoChartViewer.tsx`, `StaticChart.tsx`, `page.tsx`) are not part of this model. They only display results.
- `fetch`, `response.json()` and `console.error` are I/O. The HTTP exchange is the `FetchOutcome` input value. A body that is not a product list is its `Malformed` case.
- The distributions of `Math.random()` are not modelled, so the model says nothing like "a golden cross 30% of the time". Each draw is only known to lie in [0, 1).
- Lazy fallback draws are modelled loosely. In `r > 0.6 ? a : r' > 0.3 ? b : c`, the second draw is taken only when needed. The model passes both draws, so which later draw feeds which call site is not modelled.
- `Date.now()` is the `now` parameter. `toLocaleDateString()` is locale formatting, so `TrendPoint` keeps the timestamp the date label is rendered from.
- `toFixed(1)` is the `fixed1` parameter of `Reason.Message`. The statements about rendered text hold for every `fixed1`, so number formatting itself is not modelled.
- `Promise.all` and `async` are modelled as an in-order map (`AnalyzeAll`). No shared state makes the order observable beyond the draws.
- `analyzeSocialSentiment` only forwards to `generateSocialData`, and it is modelled as that function.
- The unused `symbol` parameters are not modelled.
- IEEE-754 `NaN` and `Infinity` from division by zero are not modelled. Reals are exact. Divisions by a day's or a history's total require a positive total, which every generated day has (`Day`, `GenerateHistory`).
- Candle fetching, 429 retries, multi-timeframe windows and triangle or cup-and-handle geometry are not modelled. The source has no code for them.
- `deathCross`, the EMA values, `macd.signal`, `macd.histogram`, volatility, the volume trend and the four pattern flags feed no formula. They are modelled with their ranges but play no further part.
- PatternAnalysis.CalculateBreakoutProbability: the momentum bands are stated closed, `[0.8p, 1.2p]`, with the strict upper bound only for p > 0. At p = 0 the half-open band `[0, 0)` is empty and no momentum could meet it.
- SocialSentiment.SocialBreakoutScore: states bounds and monotonicity rather than the exact weighted sum, because the sum is the body itself.
- CoinbasePairs.UsdPairs: the contract states length and suffix only. Membership, order and multiplicity are in `UsdPairsMembers`, `UsdPairsAppend` and `UsdPairsSingle`.

=== FILE: basics.dfy ===
/** Shared vocabulary: random draws made explicit, and the min/max clamp the
    scoring formulas use. */
module Basics {

  /** A value `Math.random()` can return: a real in the half-open interval [0, 1). */
  predicate IsDraw(r: real) {
    0.0 <= r < 1.0
  }

  function Min(a: real, b: real): real {
    if a <= b then a else b
  }

  function Max(a: real, b: real): real {
    if a >= b then a else b
  }

  /** `Math.min(hi, Math.max(lo, x))`, the clamp the social scores use. */
  function Clamp(x: real, lo: real, hi: real): (r: real)
    requires lo <= hi
    ensures lo <= r <= hi
    ensures lo <= x <= hi ==> r == x
    ensures x < lo ==> r == lo
    ensures x > hi ==> r == hi
  {
    Min(hi, Max(lo, x))
  }

  /** Multiplying both sides by a non-negative factor keeps the order. */
  lemma ScaleBelow(x: real, y: real, k: real)
    requires x <= y && 0.0 <= k
    ensures x * k <= y * k
  {
  }

  /** Multiplying both sides by a positive factor keeps a strict order. */
  lemma ScaleStrictlyBelow(x: real, y: real, k: real)
    requires x < y && 0.0 < k
    ensures x * k < y * k
  {
  }

  /** The `cond ? weight : 0` terms of the weighted formulas. */
  function Bonus(cond: bool, weight: real): real {
    if cond then weight else 0.0
  }
}

=== FILE: breakout_ranker.dfy ===
/** `getTopBreakoutCandidates`: analyse the ten fixed pairs, sort by
    confidence (highest first, stable) and keep at most ten. */
module BreakoutRanker {
  import opened StableSort
  import opened PatternAnalysis

  const Pairs: seq<string> :=
    ["BTC-USD", "ETH-USD", "SOL-USD", "XRP-USD", "DOGE-USD",
     "ADA-USD", "AVAX-USD", "MATIC-USD", "DOT-USD", "LINK-USD"]

  const TopCount: nat := 10

  function ConfidenceOf(a: DetailedPatternAnalysis): real {
    a.confidence
  }

  /** `sort((a, b) => b.confidence - a.confidence).slice(0, 10)`. */
  function TopCandidates(analyses: seq<DetailedPatternAnalysis>): (top: seq<DetailedPatternAnalysis>)
    ensures |top| == if |analyses| < TopCount then |analyses| else TopCount
    ensures forall i, j :: 0 <= i < j < |top| ==> top[i].confidence >= top[j].confidence
    ensures multiset(top) <= multiset(analyses)
    ensures |analyses| <= TopCount ==> multiset(top) == multiset(analyses)
    ensures forall x, y :: x in multiset(analyses) - multiset(top) && y in top ==> y.confidence >= x.confidence
  {
    var top := TopByKey(analyses, ConfidenceOf, TopCount);
    assert SortedDesc(top, ConfidenceOf);
    top
  }

  /** Among analyses of equal confidence, the kept ones are the earliest in
      input order and keep that order. */
  lemma TopCandidatesStable(analyses: seq<DetailedPatternAnalysis>, k: real)
    ensures WithKey(TopCandidates(analyses), ConfidenceOf, k) <= WithKey(analyses, ConfidenceOf, k)
  {
    TopByKeyStable(analyses, ConfidenceOf, TopCount, k);
  }

  /** Every simulated host is in range. */
  predicate AllValid(sims: seq<Simulation>) {
    forall i :: 0 <= i < |sims| ==> ValidSimulation(sims[i])
  }

  function SymbolOf(a: DetailedPatternAnalysis): string {
    a.symbol
  }

  predicate ConfidenceInRange(a: DetailedPatternAnalysis) {
    0.0 <= a.confidence < 118.0
  }

  /** `Promise.all(pairs.map(analyzePatterns))`, run in order: one analysis per
      symbol, carrying that symbol, with a confidence in [0, 118). */
  function AnalyzeAll(symbols: seq<string>, sims: seq<Simulation>): (analyses: seq<DetailedPatternAnalysis>)
    requires |sims| == |symbols|
    requires AllValid(sims)
    ensures Tags(analyses, SymbolOf) == symbols
    ensures forall i :: 0 <= i < |analyses| ==> ConfidenceInRange(analyses[i])
  {
    var analyses := seq(|symbols|, i requires 0 <= i < |symbols| => AnalyzePatterns(symbols[i], sims[i]));
    assert Tags(analyses, SymbolOf) == symbols;
    analyses
  }

  /** Analyses the given symbols and ranks them by confidence. */
  function RankSymbols(symbols: seq<string>, sims: seq<Simulation>): (top: seq<DetailedPatternAnalysis>)
    requires |sims| == |symbols|
    requires AllValid(sims)
    ensures |top| == if |symbols| < TopCount then |symbols| else TopCount
    ensures forall i, j :: 0 <= i < j < |top| ==> top[i].confidence >= top[j].confidence
    ensures multiset(top) <= multiset(AnalyzeAll(symbols, sims))
    ensures |symbols| <= TopCount ==> multiset(top) == multiset(AnalyzeAll(symbols, sims))
  {
    TopCandidates(AnalyzeAll(symbols, sims))
  }

  /** With at most ten symbols nothing is cut: the ranking carries exactly the
      given symbols, and every confidence lies in [0, 118). */
  lemma RankCoversSymbols(symbols: seq<string>, sims: seq<Simulation>)
    requires |sims| == |symbols| <= TopCount
    requires AllValid(sims)
    ensures var top := RankSymbols(symbols, sims);
            && (forall s :: s in symbols <==> s in Tags(top, SymbolOf))
            && (forall j :: 0 <= j < |top| ==> ConfidenceInRange(top[j]))
  {
    var analyses := AnalyzeAll(symbols, sims);
    var top := RankSymbols(symbols, sims);
    ReorderKeepsLabels(analyses, top, SymbolOf, symbols);
    ReorderKeepsProperty(analyses, top, ConfidenceInRange);
  }

  /** `getTopBreakoutCandidates`: the ten fixed pairs, each analysed with the
      host values its `analyzePatterns` call reads, ranked by confidence. */
  function GetTopBreakoutCandidates(sims: seq<Simulation>): (top: seq<DetailedPatternAnalysis>)
    requires |sims| == |Pairs|
    requires AllValid(sims)
    ensures |top| == |Pairs|
    ensures forall i, j :: 0 <= i < j < |top| ==> top[i].confidence >= top[j].confidence
    ensures multiset(top) == multiset(AnalyzeAll(Pairs, sims))
  {
    RankSymbols(Pairs, sims)
  }

  /** The ranking covers the whole universe: it holds every pair and no other
      symbol, and every confidence lies in [0, 118). */
  lemma TopCoversAllPairs(sims: seq<Simulation>)
    requires |sims| == |Pairs|
    requires AllValid(sims)
    ensures var top := GetTopBreakoutCandidates(sims);
            && (forall s :: s in Pairs <==> s in Tags(top, SymbolOf))
            && (forall j :: 0 <= j < |top| ==> ConfidenceInRange(top[j]))
  {
    var top := GetTopBreakoutCandidates(sims);
    assert top == RankSymbols(Pairs, sims);
    RankCoversSymbols(Pairs, sims);
  }
}

=== FILE: coinbase_pairs.dfy ===
/** `fetchTradingPairs`: the symbol universe, read from the exchange's
    product list. The HTTP exchange itself is an input value. */
module CoinbasePairs {

  datatype Product = Product(id: string, baseCurrency: string, quoteCurrency: string, status: string)

  /** The body of the response: a product list, or something `response.json()`
      cannot parse or that is not a list of products. */
  datatype Payload = Products(products: seq<Product>) | Malformed

  /** How the products request ended: no response at all (the `fetch` threw),
      or a response with its `ok` flag, status code and body. */
  datatype FetchOutcome = NetworkFailure | Response(ok: bool, status: int, payload: Payload)

  /** A product traded against the dollar that is currently online. */
  predicate IsActiveUsd(p: Product) {
    p.quoteCurrency == "USD" && p.status == "online"
  }

  /** The `${base_currency}-${quote_currency}` identifier; `id` is not used. */
  function PairId(p: Product): string {
    p.baseCurrency + "-" + p.quoteCurrency
  }

  /** `products.filter(IsActiveUsd).map(PairId)`. */
  function UsdPairs(products: seq<Product>): (ids: seq<string>)
    ensures |ids| <= |products|
    ensures forall i :: 0 <= i < |ids| ==> |ids[i]| >= 4 && ids[i][|ids[i]| - 4..] == "-USD"
  {
    if |products| == 0 then []
    else
      var p := products[0];
      assert IsActiveUsd(p) ==> PairId(p)[|PairId(p)| - 4..] == "-USD" by {
        if IsActiveUsd(p) {
          assert PairId(p) == p.baseCurrency + "-USD";
        }
      }
      (if IsActiveUsd(p) then [PairId(p)] else []) + UsdPairs(products[1..])
  }

  /** The identifiers are exactly those of the qualifying products: each entry
      comes from an online USD product, and each online USD product has its
      entry. */
  lemma {:induction false} UsdPairsMembers(products: seq<Product>)
    ensures forall id :: id in UsdPairs(products) <==>
              exists j :: 0 <= j < |products| && IsActiveUsd(products[j]) && id == PairId(products[j])
  {
    if |products| > 0 {
      var rest := products[1..];
      UsdPairsMembers(rest);
      assert forall j :: 1 <= j < |products| ==> products[j] == rest[j - 1];
      forall id | exists j :: 0 <= j < |products| && IsActiveUsd(products[j]) && id == PairId(products[j])
        ensures id in UsdPairs(products)
      {
        var j :| 0 <= j < |products| && IsActiveUsd(products[j]) && id == PairId(products[j]);
        if j > 0 {
          assert IsActiveUsd(rest[j - 1]) && id == PairId(rest[j - 1]);
        }
      }
    }
  }

  /** The filter works product by product: a list's identifiers are those of
      its first part followed by those of its second, so input order is kept
      and each qualifying product yields exactly one entry. */
  lemma {:induction false} UsdPairsAppend(a: seq<Product>, b: seq<Product>)
    ensures UsdPairs(a + b) == UsdPairs(a) + UsdPairs(b)
  {
    if |a| == 0 {
      assert a + b == b;
    } else {
      assert (a + b)[1..] == a[1..] + b;
      UsdPairsAppend(a[1..], b);
      assert UsdPairs(a + b) == (if IsActiveUsd(a[0]) then [PairId(a[0])] else []) + UsdPairs(a[1..] + b);
    }
  }

  /** One product yields its identifier when it qualifies and nothing otherwise. */
  lemma UsdPairsSingle(p: Product)
    ensures UsdPairs([p]) == if IsActiveUsd(p) then [PairId(p)] else []
  {
    assert [p][1..] == [];
  }

  /** Only the currency and status fields matter: products that differ only in
      `id` give the same identifiers. */
  lemma {:induction false} UsdPairsIgnoresId(a: seq<Product>, b: seq<Product>)
    requires |a| == |b|
    requires forall i :: 0 <= i < |a| ==>
               a[i].baseCurrency == b[i].baseCurrency && a[i].quoteCurrency == b[i].quoteCurrency
               && a[i].status == b[i].status
    ensures UsdPairs(a) == UsdPairs(b)
  {
    if |a| > 0 {
      UsdPairsIgnoresId(a[1..], b[1..]);
    }
  }

  /** An online USD pair is kept; a EUR pair and an offline USD pair are not. */
  lemma UsdPairsExample()
    ensures UsdPairs([
              Product("BTC-USD", "BTC", "USD", "online"),
              Product("ETH-EUR", "ETH", "EUR", "online"),
              Product("DOGE-USD", "DOGE", "USD", "offline")]) == ["BTC-USD"]
  {
    var btc := Product("BTC-USD", "BTC", "USD", "online");
    var eth := Product("ETH-EUR", "ETH", "EUR", "online");
    var doge := Product("DOGE-USD", "DOGE", "USD", "offline");
    var all := [btc, eth, doge];
    assert all[1..] == [eth, doge];
    assert [eth, doge][1..] == [doge];
    assert [doge][1..] == [];
    assert UsdPairs([doge]) == [];
    assert UsdPairs([eth, doge]) == [];
    assert UsdPairs(all) == [PairId(btc)];
    assert PairId(btc) == "BTC-USD";
  }

  /** `fetchTradingPairs`: the USD pairs of a successful response; any failure
      (no response, a non-ok status, an unreadable body) gives the empty list. */
  function FetchTradingPairs(outcome: FetchOutcome): (ids: seq<string>)
    ensures outcome.NetworkFailure? ==> ids == []
    ensures outcome.Response? && !outcome.ok ==> ids == []
    ensures outcome.Response? && outcome.payload.Malformed? ==> ids == []
    ensures outcome.Response? && outcome.ok && outcome.payload.Products? ==>
              ids == UsdPairs(outcome.payload.products)
    ensures forall i :: 0 <= i < |ids| ==> |ids[i]| >= 4 && ids[i][|ids[i]| - 4..] == "-USD"
  {
    match outcome
    case NetworkFailure => []
    case Response(ok, _, payload) =>
      if !ok then []
      else
        match payload
        case Malformed => []
        case Products(products) => UsdPairs(products)
  }
}

=== FILE: pattern_analysis.dfy ===
/** The per-symbol scoring pipeline: simulated volume, indicator and market
    signals, the breakout and confidence formulas, the formatted social
    history and the ordered reasoning list. Every `Math.random()` call is a
    draw passed in as a parameter. */
module PatternAnalysis {
  import opened Basics
  import opened SocialSentiment

  // ---------------------------------------------------------------------------
  // Signals

  /** 'bullish' | 'bearish' | 'neutral', shared by the MACD trend and the market sentiment. */
  datatype Outlook = Bullish | Bearish | Neutral

  /** The volume trend: 'increasing' | 'neutral' | 'decreasing'. */
  datatype VolumeTrend = Increasing | Flat | Decreasing

  datatype Volatility = High | Medium | Low

  /** The three-way choice `r > 0.6 ? a : r' > 0.3 ? b : c`; the fallback draw
      `r'` is only taken when the first draw is at most 0.6. */
  function Tiered<T>(r: real, fallback: real, a: T, b: T, c: T): T {
    if r > 0.6 then a else if fallback > 0.3 then b else c
  }

  datatype VolumeAnalysis = VolumeAnalysis(anomalies: bool, trend: VolumeTrend, whaleActivity: bool, score: real)

  datatype VolumeDraws = VolumeDraws(anomalies: real, trend: real, trendFallback: real, whale: real, score: real)

  predicate ValidVolumeDraws(d: VolumeDraws) {
    IsDraw(d.anomalies) && IsDraw(d.trend) && IsDraw(d.trendFallback) && IsDraw(d.whale) && IsDraw(d.score)
  }

  /** `analyzeVolume`: a 30% anomaly flag, a tiered trend, a 20% whale flag and a score in [0, 100). */
  function AnalyzeVolume(d: VolumeDraws): (v: VolumeAnalysis)
    requires ValidVolumeDraws(d)
    ensures 0.0 <= v.score < 100.0
    ensures v.anomalies <==> d.anomalies > 0.7
    ensures v.whaleActivity <==> d.whale > 0.8
    ensures v.trend == Increasing <==> d.trend > 0.6
    ensures v.trend == Decreasing <==> d.trend <= 0.6 && d.trendFallback <= 0.3
  {
    VolumeAnalysis(
      d.anomalies > 0.7,
      Tiered(d.trend, d.trendFallback, Increasing, Flat, Decreasing),
      d.whale > 0.8,
      d.score * 100.0)
  }

  datatype Macd = Macd(histogram: real, signal: real, trend: Outlook)

  datatype MovingAverages = MovingAverages(ema20: real, ema50: real, ema200: real, goldenCross: bool, deathCross: bool)

  datatype TechnicalIndicators = TechnicalIndicators(rsi: real, macd: Macd, movingAverages: MovingAverages)

  datatype IndicatorDraws = IndicatorDraws(
    rsi: real, histogram: real, signal: real,
    ema20: real, ema50: real, ema200: real,
    goldenCross: real, deathCross: real)

  predicate ValidIndicatorDraws(d: IndicatorDraws) {
    && IsDraw(d.rsi) && IsDraw(d.histogram) && IsDraw(d.signal)
    && IsDraw(d.ema20) && IsDraw(d.ema50) && IsDraw(d.ema200)
    && IsDraw(d.goldenCross) && IsDraw(d.deathCross)
  }

  /** The MACD trend read off the RSI: oversold is bullish, overbought bearish. */
  function MacdTrend(rsi: real): (t: Outlook)
    ensures t == Bullish <==> rsi < 40.0
    ensures t == Bearish <==> rsi > 60.0
    ensures t == Neutral <==> 40.0 <= rsi <= 60.0
  {
    if rsi < 40.0 then Bullish else if rsi > 60.0 then Bearish else Neutral
  }

  /** The invariant every indicator record of the pipeline keeps. */
  predicate MacdFollowsRsi(ind: TechnicalIndicators) {
    ind.macd.trend == MacdTrend(ind.rsi)
  }

  /** `analyzeTechnicalIndicators`: an RSI in [30, 70) with the MACD trend
      derived from it, and simulated averages and cross flags. */
  function AnalyzeTechnicalIndicators(d: IndicatorDraws): (ind: TechnicalIndicators)
    requires ValidIndicatorDraws(d)
    ensures 30.0 <= ind.rsi < 70.0
    ensures MacdFollowsRsi(ind)
    ensures ind.macd.trend == Bullish <==> ind.rsi < 40.0
    ensures ind.macd.trend == Bearish <==> ind.rsi > 60.0
    ensures -1.0 <= ind.macd.histogram < 1.0 && -1.0 <= ind.macd.signal < 1.0
    ensures 100.0 <= ind.movingAverages.ema20 < 120.0
    ensures 90.0 <= ind.movingAverages.ema50 < 120.0
    ensures 80.0 <= ind.movingAverages.ema200 < 120.0
    ensures ind.movingAverages.goldenCross <==> d.goldenCross > 0.7
    ensures ind.movingAverages.deathCross <==> d.deathCross > 0.9
  {
    var rsi := 30.0 + d.rsi * 40.0;
    TechnicalIndicators(
      rsi,
      Macd(d.histogram * 2.0 - 1.0, d.signal * 2.0 - 1.0, MacdTrend(rsi)),
      MovingAverages(
        100.0 + d.ema20 * 20.0,
        90.0 + d.ema50 * 30.0,
        80.0 + d.ema200 * 40.0,
        d.goldenCross > 0.7,
        d.deathCross > 0.9))
  }

  datatype MarketConditions = MarketConditions(sentiment: Outlook, volatility: Volatility, trendStrength: real)

  datatype MarketDraws = MarketDraws(
    sentiment: real, sentimentFallback: real,
    volatility: real, volatilityFallback: real,
    trendStrength: real)

  predicate ValidMarketDraws(d: MarketDraws) {
    && IsDraw(d.sentiment) && IsDraw(d.sentimentFallback)
    && IsDraw(d.volatility) && IsDraw(d.volatilityFallback)
    && IsDraw(d.trendStrength)
  }

  /** `analyzeMarketConditions`: tiered sentiment and volatility, trend strength in [0, 100). */
  function AnalyzeMarketConditions(d: MarketDraws): (m: MarketConditions)
    requires ValidMarketDraws(d)
    ensures 0.0 <= m.trendStrength < 100.0
    ensures m.sentiment == Bullish <==> d.sentiment > 0.6
    ensures m.sentiment == Bearish <==> d.sentiment <= 0.6 && d.sentimentFallback <= 0.3
    ensures m.volatility == High <==> d.volatility > 0.6
    ensures m.volatility == Low <==> d.volatility <= 0.6 && d.volatilityFallback <= 0.3
  {
    MarketConditions(
      Tiered(d.sentiment, d.sentimentFallback, Bullish, Neutral, Bearish),
      Tiered(d.volatility, d.volatilityFallback, High, Medium, Low),
      d.trendStrength * 100.0)
  }

  // ---------------------------------------------------------------------------
  // Breakout analysis

  datatype Timeframes = Timeframes(hourly: real, sixHour: real, daily: real)

  datatype PriceTargets = PriceTargets(conservative: real, moderate: real, aggressive: real)

  datatype BreakoutAnalysis = BreakoutAnalysis(
    probability: real,
    timeframes: Timeframes,
    support: real,
    resistance: real,
    stopLoss: real,
    targets: PriceTargets,
    riskRewardRatio: real)

  /** The ten draws of `calculateBreakoutProbability`, in call order. */
  datatype BreakoutDraws = BreakoutDraws(
    daily: real, sixHour: real, hourly: real,
    support: real, resistance: real, stopLoss: real,
    conservative: real, moderate: real, aggressive: real,
    riskReward: real)

  predicate ValidBreakoutDraws(d: BreakoutDraws) {
    && IsDraw(d.daily) && IsDraw(d.sixHour) && IsDraw(d.hourly)
    && IsDraw(d.support) && IsDraw(d.resistance) && IsDraw(d.stopLoss)
    && IsDraw(d.conservative) && IsDraw(d.moderate) && IsDraw(d.aggressive)
    && IsDraw(d.riskReward)
  }

  /** The signal inputs are in the ranges the simulated analysers produce. */
  predicate SignalsInRange(volume: VolumeAnalysis, market: MarketConditions, socialScore: real) {
    && 0.0 <= volume.score < 100.0
    && 0.0 <= market.trendStrength < 100.0
    && 0.0 <= socialScore <= 100.0
  }

  /** The weighted breakout probability: 30% volume score, 20 for oversold RSI,
      15 each for a bullish MACD and a golden cross, 20% trend strength, 20%
      social score. */
  function BaseProbability(volume: VolumeAnalysis, indicators: TechnicalIndicators,
                           market: MarketConditions, socialScore: real): (p: real)
    ensures volume.score >= 0.0 && market.trendStrength >= 0.0 && socialScore >= 0.0 ==> p >= 0.0
    ensures SignalsInRange(volume, market, socialScore) ==> 0.0 <= p < 120.0
  {
    volume.score * 0.3
    + Bonus(indicators.rsi < 40.0, 20.0)
    + Bonus(indicators.macd.trend == Bullish, 15.0)
    + Bonus(indicators.movingAverages.goldenCross, 15.0)
    + market.trendStrength * 0.2
    + socialScore * 0.2
  }

  /** When the MACD trend follows the RSI, oversold conditions are worth 35
      points of probability (20 for the RSI, 15 for the MACD) and otherwise none. */
  lemma OversoldWorthThirtyFive(volume: VolumeAnalysis, indicators: TechnicalIndicators,
                                market: MarketConditions, socialScore: real)
    requires MacdFollowsRsi(indicators)
    ensures BaseProbability(volume, indicators, market, socialScore)
            == volume.score * 0.3 + market.trendStrength * 0.2 + socialScore * 0.2
               + Bonus(indicators.movingAverages.goldenCross, 15.0)
               + Bonus(indicators.rsi < 40.0, 35.0)
  {
  }

  /** `p * (low + r * 0.4)`: a timeframe momentum scaled from the probability. */
  function Momentum(p: real, low: real, r: real): (m: real)
    requires IsDraw(r)
    ensures p >= 0.0 ==> low * p <= m <= (low + 0.4) * p
    ensures p > 0.0 ==> m < (low + 0.4) * p
  {
    var m := p * (low + r * 0.4);
    assert m == low * p + r * (0.4 * p);
    assert p >= 0.0 ==> 0.0 <= r * (0.4 * p) <= 0.4 * p by {
      if p >= 0.0 {
        ScaleBelow(0.0, r, 0.4 * p);
        ScaleBelow(r, 1.0, 0.4 * p);
      }
    }
    assert p > 0.0 ==> r * (0.4 * p) < 0.4 * p by {
      if p > 0.0 {
        ScaleStrictlyBelow(r, 1.0, 0.4 * p);
      }
    }
    m
  }

  /** `calculateBreakoutProbability`: the probability, momentum per timeframe
      within its band, and price levels drawn from fixed bands. */
  function CalculateBreakoutProbability(volume: VolumeAnalysis, indicators: TechnicalIndicators,
                                        market: MarketConditions, socialScore: real,
                                        d: BreakoutDraws): (b: BreakoutAnalysis)
    requires ValidBreakoutDraws(d)
    ensures b.probability == BaseProbability(volume, indicators, market, socialScore)
    ensures var p := b.probability;
            p >= 0.0 ==>
              && 0.8 * p <= b.timeframes.daily <= 1.2 * p
              && 0.7 * p <= b.timeframes.sixHour <= 1.1 * p
              && 0.6 * p <= b.timeframes.hourly <= 1.0 * p
    ensures var p := b.probability;
            p > 0.0 ==>
              && b.timeframes.daily < 1.2 * p
              && b.timeframes.sixHour < 1.1 * p
              && b.timeframes.hourly < 1.0 * p
    ensures 90.0 <= b.support < 110.0 <= b.resistance < 130.0
    ensures 85.0 <= b.stopLoss < 95.0
    ensures b.support < b.resistance && b.stopLoss < b.resistance
    ensures b.targets.conservative < b.targets.moderate < b.targets.aggressive
    ensures 2.0 <= b.riskRewardRatio < 5.0
  {
    var baseProb := BaseProbability(volume, indicators, market, socialScore);
    BreakoutAnalysis(
      baseProb,
      Timeframes(
        Momentum(baseProb, 0.6, d.hourly),
        Momentum(baseProb, 0.7, d.sixHour),
        Momentum(baseProb, 0.8, d.daily)),
      90.0 + d.support * 20.0,
      110.0 + d.resistance * 20.0,
      85.0 + d.stopLoss * 10.0,
      PriceTargets(
        115.0 + d.conservative * 10.0,
        130.0 + d.moderate * 20.0,
        150.0 + d.aggressive * 50.0),
      2.0 + d.riskReward * 3.0)
  }

  /** The stop-loss band [85, 95) overlaps the support band [90, 110): some
      draws put the stop-loss above the support level. */
  lemma StopLossCanExceedSupport(volume: VolumeAnalysis, indicators: TechnicalIndicators,
                                 market: MarketConditions, socialScore: real)
    ensures var d := BreakoutDraws(0.0, 0.0, 0.0, 0.0, 0.0, 0.9, 0.0, 0.0, 0.0, 0.0);
            var b := CalculateBreakoutProbability(volume, indicators, market, socialScore, d);
            b.stopLoss > b.support
  {
  }

  // ---------------------------------------------------------------------------
  // Formatted social history

  datatype TrendPoint = TrendPoint(timestamp: int, mentions: int, sentiment: real)

  datatype SocialAnalysis = SocialAnalysis(
    mentionVolume: int,
    volumeChange: real,
    sentimentScore: real,
    trendingScore: real,
    weeklyTrend: seq<TrendPoint>)

  function Reverse<T>(s: seq<T>): (r: seq<T>)
    ensures |r| == |s|
    ensures forall i :: 0 <= i < |s| ==> r[i] == s[|s| - 1 - i]
  {
    if |s| == 0 then [] else Reverse(s[1..]) + [s[0]]
  }

  /** One history day as a chart point; the date label is rendered from `timestamp`. */
  function TrendPointOf(d: SentimentData): TrendPoint
    requires d.totalMentions != 0
  {
    TrendPoint(d.timestamp, d.totalMentions, DaySentiment(d))
  }

  /** `formatSocialData`: copies the four scalar metrics and turns the history
      (most recent first) into chart points, oldest first. */
  function FormatSocialData(m: SocialMetrics): (s: SocialAnalysis)
    requires PositiveTotals(m.historicalData)
    ensures s.mentionVolume == m.mentionVolume && s.volumeChange == m.volumeChange
    ensures s.sentimentScore == m.sentimentScore && s.trendingScore == m.trendingScore
    ensures |s.weeklyTrend| == |m.historicalData|
    ensures forall i :: 0 <= i < |s.weeklyTrend| ==>
              var day := m.historicalData[|m.historicalData| - 1 - i];
              && s.weeklyTrend[i].timestamp == day.timestamp
              && s.weeklyTrend[i].mentions == day.totalMentions
              && s.weeklyTrend[i].sentiment * day.totalMentions as real
                 == (day.positiveCount - day.negativeCount) as real
  {
    var h := m.historicalData;
    var points := seq(|h|, i requires 0 <= i < |h| => TrendPointOf(h[i]));
    SocialAnalysis(m.mentionVolume, m.volumeChange, m.sentimentScore, m.trendingScore, Reverse(points))
  }

  /** A history whose timestamps fall with the index gives a weekly trend
      whose timestamps rise: the chart runs oldest to newest. */
  lemma WeeklyTrendChronological(m: SocialMetrics)
    requires PositiveTotals(m.historicalData)
    requires var h := m.historicalData; forall i, j :: 0 <= i < j < |h| ==> h[j].timestamp < h[i].timestamp
    ensures var w := FormatSocialData(m).weeklyTrend;
            forall i, j :: 0 <= i < j < |w| ==> w[i].timestamp < w[j].timestamp
  {
    var h := m.historicalData;
    var w := FormatSocialData(m).weeklyTrend;
    forall i, j | 0 <= i < j < |w|
      ensures w[i].timestamp < w[j].timestamp
    {
      assert w[i].timestamp == h[|h| - 1 - i].timestamp;
      assert w[j].timestamp == h[|h| - 1 - j].timestamp;
    }
  }

  /** Over well-formed days every point's sentiment lies in [-1, 1]. */
  lemma WeeklyTrendSentimentInRange(m: SocialMetrics)
    requires AllWellFormed(m.historicalData)
    ensures PositiveTotals(m.historicalData)
    ensures var w := FormatSocialData(m).weeklyTrend;
            forall i :: 0 <= i < |w| ==> -1.0 <= w[i].sentiment <= 1.0
  {
    var h := m.historicalData;
    var w := FormatSocialData(m).weeklyTrend;
    forall i | 0 <= i < |w|
      ensures -1.0 <= w[i].sentiment <= 1.0
    {
      var day := h[|h| - 1 - i];
      assert WellFormedDay(day);
      RatioInUnitRange((day.positiveCount - day.negativeCount) as real, day.totalMentions as real);
    }
  }

  /** For the generated feed the weekly trend runs in chronological order,
      ends with today's volume, and every daily sentiment lies in [-1, 1]. */
  lemma GeneratedWeeklyTrend(now: int, draws: seq<DayDraws>)
    requires |draws| == HistoryDays
    requires forall i :: 0 <= i < |draws| ==> ValidDayDraws(draws[i])
    ensures var m := GenerateSocialData(now, draws);
            var w := FormatSocialData(m).weeklyTrend;
            && |w| == HistoryDays
            && (forall i, j :: 0 <= i < j < |w| ==> w[i].timestamp < w[j].timestamp)
            && w[HistoryDays - 1].mentions == m.mentionVolume
            && w[HistoryDays - 1].timestamp == now
            && (forall i :: 0 <= i < |w| ==> -1.0 <= w[i].sentiment <= 1.0)
  {
    var m := GenerateSocialData(now, draws);
    WeeklyTrendChronological(m);
    WeeklyTrendSentimentInRange(m);
  }

  // ---------------------------------------------------------------------------
  // Reasoning

  /** One line of the reasoning list. */
  datatype Reason =
    | VolumeAnomalies
    | WhaleAccumulation
    | OversoldRsi
    | BullishMacd
    | GoldenCrossFormed
    | StrongBullishMarket
    | FavorableRiskReward
    | SocialVolumeSurge(percent: real)
    | PositiveSocialSentiment
    | SocialMomentum
  {
    /** Position in the fixed emission order. */
    function Rank(): nat {
      match this
      case VolumeAnomalies => 0
      case WhaleAccumulation => 1
      case OversoldRsi => 2
      case BullishMacd => 3
      case GoldenCrossFormed => 4
      case StrongBullishMarket => 5
      case FavorableRiskReward => 6
      case SocialVolumeSurge(_) => 7
      case PositiveSocialSentiment => 8
      case SocialMomentum => 9
    }

    /** The line's text; `fixed1` renders a number with one decimal. */
    function Message(fixed1: real -> string): string {
      match this
      case VolumeAnomalies => "Significant volume anomalies detected indicating potential institutional interest"
      case WhaleAccumulation => "Whale wallet accumulation observed in recent periods"
      case OversoldRsi => "RSI indicating oversold conditions with potential for reversal"
      case BullishMacd => "MACD showing bullish momentum with positive histogram expansion"
      case GoldenCrossFormed => "Recent golden cross formation on moving averages"
      case StrongBullishMarket => "Strong bullish market sentiment with robust trend strength"
      case FavorableRiskReward => "Favorable risk-reward ratio at current levels"
      case SocialVolumeSurge(p) => "Social mention volume up " + fixed1(p) + "% over the past week"
      case PositiveSocialSentiment => "Highly positive social sentiment with strong community engagement"
      case SocialMomentum => "Significant social media momentum building"
    }
  }

  predicate RanksIncrease(rs: seq<Reason>) {
    forall i, j :: 0 <= i < j < |rs| ==> rs[i].Rank() < rs[j].Rank()
  }

  /** The records `generateReasoning` reads. */
  datatype ReasoningInputs = ReasoningInputs(
    volume: VolumeAnalysis,
    indicators: TechnicalIndicators,
    market: MarketConditions,
    breakout: BreakoutAnalysis,
    social: SocialAnalysis)

  /** Whether the condition behind a line holds; the volume-surge line must
      also carry the current volume change. */
  predicate Triggered(x: Reason, inputs: ReasoningInputs) {
    match x
    case VolumeAnomalies => inputs.volume.anomalies
    case WhaleAccumulation => inputs.volume.whaleActivity
    case OversoldRsi => inputs.indicators.rsi < 40.0
    case BullishMacd => inputs.indicators.macd.trend == Bullish
    case GoldenCrossFormed => inputs.indicators.movingAverages.goldenCross
    case StrongBullishMarket => inputs.market.sentiment == Bullish && inputs.market.trendStrength > 70.0
    case FavorableRiskReward => inputs.breakout.riskRewardRatio > 3.0
    case SocialVolumeSurge(p) => p == inputs.social.volumeChange && inputs.social.volumeChange > 50.0
    case PositiveSocialSentiment => inputs.social.sentimentScore > 0.3
    case SocialMomentum => inputs.social.trendingScore > 70.0
  }

  /** Every line the list can hold, in emission order. */
  function AllReasons(inputs: ReasoningInputs): (c: seq<Reason>)
    ensures |c| == 10
    ensures forall i :: 0 <= i < |c| ==> c[i].Rank() == i
  {
    [VolumeAnomalies, WhaleAccumulation, OversoldRsi, BullishMacd, GoldenCrossFormed,
     StrongBullishMarket, FavorableRiskReward, SocialVolumeSurge(inputs.social.volumeChange),
     PositiveSocialSentiment, SocialMomentum]
  }

  /** The candidates whose condition holds, in candidate order: the chain of
      `if (...) reasons.push(...)` statements. */
  function Select(candidates: seq<Reason>, inputs: ReasoningInputs): (rs: seq<Reason>)
    ensures |rs| <= |candidates|
    ensures forall x :: x in rs ==> x in candidates && Triggered(x, inputs)
    ensures RanksIncrease(candidates) ==> RanksIncrease(rs)
  {
    if |candidates| == 0 then []
    else
      var rest := Select(candidates[1..], inputs);
      assert RanksIncrease(candidates) ==> forall x :: x in rest ==> candidates[0].Rank() < x.Rank() by {
        if RanksIncrease(candidates) {
          forall x | x in rest
            ensures candidates[0].Rank() < x.Rank()
          {
            var j :| 0 <= j < |candidates[1..]| && candidates[1..][j] == x;
            assert candidates[j + 1] == x;
          }
        }
      }
      if Triggered(candidates[0], inputs) then [candidates[0]] + rest else rest
  }

  /** A candidate is selected exactly when its condition holds. */
  lemma {:induction false} SelectedIffTriggered(candidates: seq<Reason>, inputs: ReasoningInputs, k: nat)
    requires k < |candidates|
    ensures candidates[k] in Select(candidates, inputs) <==> Triggered(candidates[k], inputs)
  {
    if k > 0 {
      SelectedIffTriggered(candidates[1..], inputs, k - 1);
    }
  }

  /** `generateReasoning`: the lines whose condition holds, each at most once,
      in the order of `AllReasons`. */
  function GenerateReasoning(volume: VolumeAnalysis, indicators: TechnicalIndicators,
                             market: MarketConditions, breakout: BreakoutAnalysis,
                             social: SocialAnalysis): (rs: seq<Reason>)
    ensures |rs| <= 10
    ensures RanksIncrease(rs)
    ensures var inputs := ReasoningInputs(volume, indicators, market, breakout, social);
            forall k :: 0 <= k < 10 ==>
              (AllReasons(inputs)[k] in rs <==> Triggered(AllReasons(inputs)[k], inputs))
    ensures forall i :: 0 <= i < |rs| ==>
              Triggered(rs[i], ReasoningInputs(volume, indicators, market, breakout, social))
  {
    var inputs := ReasoningInputs(volume, indicators, market, breakout, social);
    var candidates := AllReasons(inputs);
    assert RanksIncrease(candidates);
    var rs := Select(candidates, inputs);
    forall k | 0 <= k < 10
      ensures candidates[k] in rs <==> Triggered(candidates[k], inputs)
    {
      SelectedIffTriggered(candidates, inputs, k);
    }
    assert forall i :: 0 <= i < |rs| ==> Triggered(rs[i], inputs) by {
      forall i | 0 <= i < |rs|
        ensures Triggered(rs[i], inputs)
      {
        assert rs[i] in rs;
      }
    }
    rs
  }

  /** Line by line: each appears exactly when the source's `if` condition holds,
      and the volume-surge line carries the current volume change. */
  lemma ReasoningConditions(volume: VolumeAnalysis, indicators: TechnicalIndicators,
                            market: MarketConditions, breakout: BreakoutAnalysis,
                            social: SocialAnalysis)
    ensures var rs := GenerateReasoning(volume, indicators, market, breakout, social);
            && (VolumeAnomalies in rs <==> volume.anomalies)
            && (WhaleAccumulation in rs <==> volume.whaleActivity)
            && (OversoldRsi in rs <==> indicators.rsi < 40.0)
            && (BullishMacd in rs <==> indicators.macd.trend == Bullish)
            && (GoldenCrossFormed in rs <==> indicators.movingAverages.goldenCross)
            && (StrongBullishMarket in rs <==> market.sentiment == Bullish && market.trendStrength > 70.0)
            && (FavorableRiskReward in rs <==> breakout.riskRewardRatio > 3.0)
            && (SocialVolumeSurge(social.volumeChange) in rs <==> social.volumeChange > 50.0)
            && (forall i :: 0 <= i < |rs| && rs[i].SocialVolumeSurge? ==> rs[i].percent == social.volumeChange)
            && (PositiveSocialSentiment in rs <==> social.sentimentScore > 0.3)
            && (SocialMomentum in rs <==> social.trendingScore > 70.0)
  {
    var inputs := ReasoningInputs(volume, indicators, market, breakout, social);
    var c := AllReasons(inputs);
    assert c[0] == VolumeAnomalies && c[1] == WhaleAccumulation && c[2] == OversoldRsi;
    assert c[3] == BullishMacd && c[4] == GoldenCrossFormed && c[5] == StrongBullishMarket;
    assert c[6] == FavorableRiskReward && c[7] == SocialVolumeSurge(social.volumeChange);
    assert c[8] == PositiveSocialSentiment && c[9] == SocialMomentum;
  }

  /** In a rank-ordered list, ranks grow at least as fast as positions. */
  lemma {:induction false} RankGap(rs: seq<Reason>, i: nat, j: nat)
    requires RanksIncrease(rs) && i <= j < |rs|
    ensures rs[j].Rank() - rs[i].Rank() >= j - i
  {
    if i < j {
      RankGap(rs, i, j - 1);
      assert rs[j - 1].Rank() < rs[j].Rank();
    }
  }

  /** Two lines with consecutive ranks are adjacent when both appear. */
  lemma AdjacentRanks(rs: seq<Reason>, i: nat, j: nat)
    requires RanksIncrease(rs)
    requires i < |rs| && j < |rs| && rs[j].Rank() == rs[i].Rank() + 1
    ensures j == i + 1
  {
    var lo := if i <= j then i else j;
    var hi := if i <= j then j else i;
    RankGap(rs, lo, hi);
  }

  /** Because the MACD trend is bullish exactly when the RSI is below 40, the
      oversold-RSI line and the bullish-MACD line appear together, the MACD
      line right after the RSI line, or not at all. */
  lemma OversoldAndBullishTogether(volume: VolumeAnalysis, indicators: TechnicalIndicators,
                                   market: MarketConditions, breakout: BreakoutAnalysis,
                                   social: SocialAnalysis)
    requires MacdFollowsRsi(indicators)
    ensures var rs := GenerateReasoning(volume, indicators, market, breakout, social);
            && (OversoldRsi in rs <==> BullishMacd in rs)
            && forall i :: 0 <= i < |rs| && rs[i] == OversoldRsi ==> i + 1 < |rs| && rs[i + 1] == BullishMacd
  {
    var inputs := ReasoningInputs(volume, indicators, market, breakout, social);
    var rs := GenerateReasoning(volume, indicators, market, breakout, social);
    var c := AllReasons(inputs);
    assert c[2] == OversoldRsi && c[3] == BullishMacd;
    assert OversoldRsi in rs <==> Triggered(OversoldRsi, inputs);
    assert BullishMacd in rs <==> Triggered(BullishMacd, inputs);
    RsiLineThenMacdLine(rs);
  }

  /** In a rank-ordered list holding both or neither of the oversold-RSI and
      bullish-MACD lines, the MACD line follows the RSI line directly. */
  lemma RsiLineThenMacdLine(rs: seq<Reason>)
    requires RanksIncrease(rs)
    requires OversoldRsi in rs <==> BullishMacd in rs
    ensures forall i :: 0 <= i < |rs| && rs[i] == OversoldRsi ==> i + 1 < |rs| && rs[i + 1] == BullishMacd
  {
    forall i | 0 <= i < |rs| && rs[i] == OversoldRsi
      ensures i + 1 < |rs| && rs[i + 1] == BullishMacd
    {
      var j :| 0 <= j < |rs| && rs[j] == BullishMacd;
      AdjacentRanks(rs, i, j);
    }
  }

  /** The twelfth character from the end of a line's text; no two ranks share
      one. */
  function Signature(x: Reason): char {
    match x
    case VolumeAnomalies => 'n'
    case WhaleAccumulation => 'c'
    case OversoldRsi => 'f'
    case BullishMacd => 'a'
    case GoldenCrossFormed => 'i'
    case StrongBullishMarket => 'e'
    case FavorableRiskReward => 'r'
    case SocialVolumeSurge(_) => 'h'
    case PositiveSocialSentiment => 'y'
    case SocialMomentum => 't'
  }

  /** Reads the rank back from a signature. */
  function SignatureRank(c: char): nat {
    if c == 'n' then 0 else if c == 'c' then 1 else if c == 'f' then 2
    else if c == 'a' then 3 else if c == 'i' then 4 else if c == 'e' then 5
    else if c == 'r' then 6 else if c == 'h' then 7 else if c == 'y' then 8
    else 9
  }

  lemma SignatureDeterminesRank(x: Reason)
    ensures SignatureRank(Signature(x)) == x.Rank()
  {
  }

  /** A text carries `c` twelve characters from its end. */
  predicate SignedBy(m: string, c: char) {
    |m| >= 12 && m[|m| - 12] == c
  }

  lemma SignatureOfVolumeLines(x: Reason, fixed1: real -> string)
    requires x.VolumeAnomalies? || x.WhaleAccumulation?
    ensures SignedBy(x.Message(fixed1), Signature(x))
  {
  }

  lemma SignatureOfIndicatorLines(x: Reason, fixed1: real -> string)
    requires x.OversoldRsi? || x.BullishMacd?
    ensures SignedBy(x.Message(fixed1), Signature(x))
  {
  }

  lemma SignatureOfMarketLines(x: Reason, fixed1: real -> string)
    requires x.GoldenCrossFormed? || x.StrongBullishMarket? || x.FavorableRiskReward?
    ensures SignedBy(x.Message(fixed1), Signature(x))
  {
  }

  /** For the volume surge the signature lies in the fixed suffix, after the
      rendered number. */
  lemma SignatureOfSocialLines(x: Reason, fixed1: real -> string)
    requires x.SocialVolumeSurge? || x.PositiveSocialSentiment? || x.SocialMomentum?
    ensures SignedBy(x.Message(fixed1), Signature(x))
  {
    if x.SocialVolumeSurge? {
      var suffix := "% over the past week";
      var m := "Social mention volume up " + fixed1(x.percent) + suffix;
      assert m[|m| - 12] == suffix[8];
    }
  }

  lemma MessageSignature(x: Reason, fixed1: real -> string)
    ensures SignedBy(x.Message(fixed1), Signature(x))
  {
    if x.VolumeAnomalies? || x.WhaleAccumulation? {
      SignatureOfVolumeLines(x, fixed1);
    } else if x.OversoldRsi? || x.BullishMacd? {
      SignatureOfIndicatorLines(x, fixed1);
    } else if x.GoldenCrossFormed? || x.StrongBullishMarket? || x.FavorableRiskReward? {
      SignatureOfMarketLines(x, fixed1);
    } else {
      SignatureOfSocialLines(x, fixed1);
    }
  }

  /** Texts whose signatures read back to different ranks differ. */
  lemma SignaturesSeparate(a: string, b: string, ca: char, cb: char)
    requires SignedBy(a, ca) && SignedBy(b, cb) && SignatureRank(ca) != SignatureRank(cb)
    ensures a != b
  {
  }

  /** Lines of different rank never render to the same text, whatever
      `fixed1` prints for the volume change. */
  lemma MessagesDistinct(x: Reason, y: Reason, fixed1: real -> string)
    requires x.Rank() != y.Rank()
    ensures x.Message(fixed1) != y.Message(fixed1)
  {
    MessageSignature(x, fixed1);
    MessageSignature(y, fixed1);
    SignatureDeterminesRank(x);
    SignatureDeterminesRank(y);
    SignaturesSeparate(x.Message(fixed1), y.Message(fixed1), Signature(x), Signature(y));
  }

  /** The `string[]` the source returns: each line's text, in list order. */
  function RenderReasoning(rs: seq<Reason>, fixed1: real -> string): (lines: seq<string>)
    ensures |lines| == |rs|
    ensures forall i :: 0 <= i < |rs| ==> lines[i] == rs[i].Message(fixed1)
  {
    seq(|rs|, i requires 0 <= i < |rs| => rs[i].Message(fixed1))
  }

  /** A triggered line of rank `k` is the `k`-th candidate. */
  lemma TriggeredIsCandidate(x: Reason, inputs: ReasoningInputs)
    requires Triggered(x, inputs)
    ensures x.Rank() < 10 && x == AllReasons(inputs)[x.Rank()]
  {
  }

  /** A list in rank order renders to pairwise different strings. */
  lemma RenderedLinesDistinct(rs: seq<Reason>, fixed1: real -> string)
    requires RanksIncrease(rs)
    ensures var lines := RenderReasoning(rs, fixed1);
            forall i, j :: 0 <= i < j < |lines| ==> lines[i] != lines[j]
  {
    var lines := RenderReasoning(rs, fixed1);
    forall i, j | 0 <= i < j < |lines|
      ensures lines[i] != lines[j]
    {
      MessagesDistinct(rs[i], rs[j], fixed1);
    }
  }

  /** A candidate's text is among the rendered lines exactly when the
      candidate itself is in the list, provided the list holds only
      triggered lines. */
  lemma RenderedCandidate(rs: seq<Reason>, inputs: ReasoningInputs, k: nat, fixed1: real -> string)
    requires k < 10
    requires forall i :: 0 <= i < |rs| ==> Triggered(rs[i], inputs)
    ensures AllReasons(inputs)[k].Message(fixed1) in RenderReasoning(rs, fixed1) <==> AllReasons(inputs)[k] in rs
  {
    var lines := RenderReasoning(rs, fixed1);
    var x := AllReasons(inputs)[k];
    if x in rs {
      var i :| 0 <= i < |rs| && rs[i] == x;
      assert lines[i] == x.Message(fixed1);
    }
    if x.Message(fixed1) in lines {
      var i :| 0 <= i < |lines| && lines[i] == x.Message(fixed1);
      if rs[i].Rank() != x.Rank() {
        MessagesDistinct(rs[i], x, fixed1);
      }
      TriggeredIsCandidate(rs[i], inputs);
    }
  }

  /** For a list that holds exactly the triggered candidates, each candidate's
      text is rendered exactly when its condition holds. */
  lemma RenderedIffTriggered(rs: seq<Reason>, inputs: ReasoningInputs, fixed1: real -> string)
    requires forall i :: 0 <= i < |rs| ==> Triggered(rs[i], inputs)
    requires forall k :: 0 <= k < 10 ==>
               (AllReasons(inputs)[k] in rs <==> Triggered(AllReasons(inputs)[k], inputs))
    ensures forall k :: 0 <= k < 10 ==>
              (AllReasons(inputs)[k].Message(fixed1) in RenderReasoning(rs, fixed1)
               <==> Triggered(AllReasons(inputs)[k], inputs))
  {
    forall k | 0 <= k < 10
      ensures AllReasons(inputs)[k].Message(fixed1) in RenderReasoning(rs, fixed1)
              <==> AllReasons(inputs)[k] in rs
    {
      RenderedCandidate(rs, inputs, k, fixed1);
    }
  }

  /** On the rendered text: no string appears twice, and each of the ten
      texts appears exactly when the condition behind its line holds. */
  lemma RenderedReasoning(volume: VolumeAnalysis, indicators: TechnicalIndicators,
                          market: MarketConditions, breakout: BreakoutAnalysis,
                          social: SocialAnalysis, fixed1: real -> string)
    ensures var inputs := ReasoningInputs(volume, indicators, market, breakout, social);
            var lines := RenderReasoning(GenerateReasoning(volume, indicators, market, breakout, social), fixed1);
            && (forall i, j :: 0 <= i < j < |lines| ==> lines[i] != lines[j])
            && (forall k :: 0 <= k < 10 ==>
                  (AllReasons(inputs)[k].Message(fixed1) in lines <==> Triggered(AllReasons(inputs)[k], inputs)))
  {
    var inputs := ReasoningInputs(volume, indicators, market, breakout, social);
    var rs := GenerateReasoning(volume, indicators, market, breakout, social);
    RenderedLinesDistinct(rs, fixed1);
    RenderedIffTriggered(rs, inputs, fixed1);
  }

  // ---------------------------------------------------------------------------
  // Per-symbol analysis

  datatype PatternFlags = PatternFlags(ascendingTriangle: bool, cupAndHandle: bool, bullFlag: bool, fallingWedge: bool)

  datatype PatternDraws = PatternDraws(ascendingTriangle: real, cupAndHandle: real, bullFlag: real, fallingWedge: real)

  predicate ValidPatternDraws(d: PatternDraws) {
    IsDraw(d.ascendingTriangle) && IsDraw(d.cupAndHandle) && IsDraw(d.bullFlag) && IsDraw(d.fallingWedge)
  }

  /** The pattern flags are independent coin flips, not chart geometry. */
  function PatternFlagsOf(d: PatternDraws): (f: PatternFlags)
    ensures f.ascendingTriangle <==> d.ascendingTriangle > 0.7
    ensures f.cupAndHandle <==> d.cupAndHandle > 0.8
    ensures f.bullFlag <==> d.bullFlag > 0.75
    ensures f.fallingWedge <==> d.fallingWedge > 0.85
  {
    PatternFlags(d.ascendingTriangle > 0.7, d.cupAndHandle > 0.8, d.bullFlag > 0.75, d.fallingWedge > 0.85)
  }

  /** The overall confidence: 25% volume score, 15 each for oversold RSI, a
      bullish MACD and a golden cross, 15% each of trend strength, breakout
      probability and social score. */
  function Confidence(volume: VolumeAnalysis, indicators: TechnicalIndicators,
                      market: MarketConditions, probability: real, socialScore: real): (c: real)
    ensures volume.score >= 0.0 && market.trendStrength >= 0.0 && probability >= 0.0 && socialScore >= 0.0
            ==> c >= 0.0
    ensures SignalsInRange(volume, market, socialScore) && 0.0 <= probability < 120.0 ==> 0.0 <= c < 118.0
  {
    volume.score * 0.25
    + Bonus(indicators.rsi < 40.0, 15.0)
    + Bonus(indicators.macd.trend == Bullish, 15.0)
    + Bonus(indicators.movingAverages.goldenCross, 15.0)
    + market.trendStrength * 0.15
    + probability * 0.15
    + socialScore * 0.15
  }

  /** Confidence fed with the breakout probability is nine tenths of that
      probability plus 2.5% of the volume score and 3.75 each for a bullish
      MACD and a golden cross; so it never falls below 0.9 times the probability. */
  lemma ConfidenceVersusProbability(volume: VolumeAnalysis, indicators: TechnicalIndicators,
                                    market: MarketConditions, socialScore: real)
    ensures var p := BaseProbability(volume, indicators, market, socialScore);
            Confidence(volume, indicators, market, p, socialScore)
            == 0.9 * p + volume.score * 0.025
               + Bonus(indicators.macd.trend == Bullish, 3.75)
               + Bonus(indicators.movingAverages.goldenCross, 3.75)
    ensures volume.score >= 0.0 ==>
              var p := BaseProbability(volume, indicators, market, socialScore);
              Confidence(volume, indicators, market, p, socialScore) >= 0.9 * p
  {
  }

  /** In-range signals can push the confidence above 100: volume score 99,
      RSI 35, a golden cross, trend strength 99 and social score 60 give 110.325. */
  lemma ConfidenceCanExceedHundred()
    ensures var volume := VolumeAnalysis(false, Flat, false, 99.0);
            var indicators := TechnicalIndicators(35.0, Macd(0.0, 0.0, MacdTrend(35.0)),
                                                  MovingAverages(100.0, 90.0, 80.0, true, false));
            var market := MarketConditions(Neutral, Medium, 99.0);
            && SignalsInRange(volume, market, 60.0)
            && Confidence(volume, indicators, market, BaseProbability(volume, indicators, market, 60.0), 60.0) > 100.0
  {
  }

  datatype DetailedPatternAnalysis = DetailedPatternAnalysis(
    symbol: string,
    confidence: real,
    patterns: PatternFlags,
    volume: VolumeAnalysis,
    indicators: TechnicalIndicators,
    market: MarketConditions,
    breakout: BreakoutAnalysis,
    social: SocialAnalysis,
    reasoning: seq<Reason>)

  /** What one `analyzePatterns` call reads from its host: the clock and every draw. */
  datatype Simulation = Simulation(
    now: int,
    volume: VolumeDraws,
    indicators: IndicatorDraws,
    market: MarketDraws,
    social: seq<DayDraws>,
    breakout: BreakoutDraws,
    patterns: PatternDraws)

  predicate ValidSimulation(s: Simulation) {
    && ValidVolumeDraws(s.volume)
    && ValidIndicatorDraws(s.indicators)
    && ValidMarketDraws(s.market)
    && |s.social| == HistoryDays
    && (forall i :: 0 <= i < |s.social| ==> ValidDayDraws(s.social[i]))
    && ValidBreakoutDraws(s.breakout)
    && ValidPatternDraws(s.patterns)
  }

  /** `analyzePatterns`: the whole per-symbol pipeline. */
  function AnalyzePatterns(symbol: string, sim: Simulation): (a: DetailedPatternAnalysis)
    requires ValidSimulation(sim)
    ensures a.symbol == symbol
    ensures MacdFollowsRsi(a.indicators)
    ensures 0.0 <= a.breakout.probability < 120.0
    ensures 0.0 <= a.confidence < 118.0
    ensures a.confidence >= 0.9 * a.breakout.probability
    ensures |a.reasoning| <= 10 && RanksIncrease(a.reasoning)
    ensures OversoldRsi in a.reasoning <==> BullishMacd in a.reasoning
    ensures |a.social.weeklyTrend| == HistoryDays
    ensures -1.0 <= a.social.sentimentScore <= 1.0 && 0.0 <= a.social.trendingScore <= 100.0
    ensures var inputs := ReasoningInputs(a.volume, a.indicators, a.market, a.breakout, a.social);
            forall k :: 0 <= k < 10 ==>
              (AllReasons(inputs)[k] in a.reasoning <==> Triggered(AllReasons(inputs)[k], inputs))
    ensures var inputs := ReasoningInputs(a.volume, a.indicators, a.market, a.breakout, a.social);
            forall i :: 0 <= i < |a.reasoning| ==> Triggered(a.reasoning[i], inputs)
    ensures a.patterns.ascendingTriangle <==> sim.patterns.ascendingTriangle > 0.7
    ensures a.patterns.cupAndHandle <==> sim.patterns.cupAndHandle > 0.8
    ensures a.patterns.bullFlag <==> sim.patterns.bullFlag > 0.75
    ensures a.patterns.fallingWedge <==> sim.patterns.fallingWedge > 0.85
  {
    var volume := AnalyzeVolume(sim.volume);
    var indicators := AnalyzeTechnicalIndicators(sim.indicators);
    var market := AnalyzeMarketConditions(sim.market);
    var socialMetrics := GenerateSocialData(sim.now, sim.social);
    var socialScore := SocialBreakoutScore(socialMetrics);
    var social := FormatSocialData(socialMetrics);
    var breakout := CalculateBreakoutProbability(volume, indicators, market, socialScore, sim.breakout);
    var patterns := PatternFlagsOf(sim.patterns);
    var confidence := Confidence(volume, indicators, market, breakout.probability, socialScore);
    var reasoning := GenerateReasoning(volume, indicators, market, breakout, social);
    ConfidenceVersusProbability(volume, indicators, market, socialScore);
    OversoldAndBullishTogether(volume, indicators, market, breakout, social);
    DetailedPatternAnalysis(symbol, confidence, patterns, volume, indicators, market, breakout, social, reasoning)
  }

  /** The pattern flags are reported but weigh in nowhere: two runs that differ
      only in the pattern draws agree on the breakout analysis, the confidence
      and the reasoning. */
  lemma PatternsFeedNothing(symbol: string, s1: Simulation, s2: Simulation)
    requires ValidSimulation(s1) && ValidSimulation(s2)
    requires s1.(patterns := s2.patterns) == s2
    ensures AnalyzePatterns(symbol, s1).breakout == AnalyzePatterns(symbol, s2).breakout
    ensures AnalyzePatterns(symbol, s1).confidence == AnalyzePatterns(symbol, s2).confidence
    ensures AnalyzePatterns(symbol, s1).reasoning == AnalyzePatterns(symbol, s2).reasoning
  {
  }
}

=== FILE: social_sentiment.dfy ===
/** The simulated social-mention feed: a seven-day history of mention counts,
    the metrics derived from it, and the 0-100 social breakout score. */
module SocialSentiment {
  import opened Basics

  /** One day of mention counts; `timestamp` is in epoch milliseconds. */
  datatype SentimentData = SentimentData(
    positiveCount: int,
    negativeCount: int,
    neutralCount: int,
    totalMentions: int,
    timestamp: int)

  datatype SocialMetrics = SocialMetrics(
    mentionVolume: int,    // mentions on the most recent day
    volumeChange: real,    // percentage change from the oldest day to the most recent
    sentimentScore: real,  // -1 .. 1
    trendingScore: real,   // 0 .. 100
    historicalData: seq<SentimentData>)

  /** The four draws one iteration of the day loop takes, in call order. */
  datatype DayDraws = DayDraws(base: real, multiplier: real, positive: real, negative: real)

  predicate ValidDayDraws(d: DayDraws) {
    IsDraw(d.base) && IsDraw(d.multiplier) && IsDraw(d.positive) && IsDraw(d.negative)
  }

  const HistoryDays: nat := 7
  const DayMillis: int := 24 * 60 * 60 * 1000

  /** A day whose counts split its (positive) total into the three classes. */
  predicate WellFormedDay(d: SentimentData) {
    && d.totalMentions > 0
    && d.positiveCount >= 0
    && d.negativeCount >= 0
    && d.neutralCount >= 0
    && d.positiveCount + d.negativeCount + d.neutralCount == d.totalMentions
  }

  predicate AllWellFormed(h: seq<SentimentData>) {
    forall i :: 0 <= i < |h| ==> WellFormedDay(h[i])
  }

  predicate PositiveTotals(h: seq<SentimentData>) {
    forall i :: 0 <= i < |h| ==> h[i].totalMentions > 0
  }

  // ---------------------------------------------------------------------------
  // Generating the history

  lemma DayVolumeBounds(b: real, m: real, c: real)
    requires 500.0 <= b < 1500.0 && 0.75 <= m < 1.25 && 8.0 / 7.0 <= c <= 2.0
    ensures 3000.0 / 7.0 <= b * m * c < 3750.0
  {
    var bm := b * m;
    ScaleBelow(500.0, b, m);
    assert 500.0 * m <= bm;
    ScaleBelow(0.75, m, 500.0);
    assert 375.0 <= m * 500.0;
    assert 375.0 <= bm;
    ScaleBelow(375.0, bm, c);
    assert 375.0 * c <= bm * c;
    ScaleBelow(8.0 / 7.0, c, 375.0);
    assert 3000.0 / 7.0 <= c * 375.0;
    assert 3000.0 / 7.0 <= bm * c;
    ScaleBelow(m, 1.25, b);
    assert bm < 1875.0;
    ScaleBelow(c, 2.0, bm);
    assert bm * c < 3750.0;
  }

  /** Mentions on day `i` (0 = today): base volume in [500, 1500) times a
      multiplier in [0.75, 1.25) times a recency boost 1 + (7 - i) / 7, floored. */
  function DayVolume(i: nat, d: DayDraws): (v: int)
    requires i < HistoryDays && ValidDayDraws(d)
    ensures 428 <= v < 3750
  {
    var baseVolume := d.base * 1000.0 + 500.0;
    var multiplier := d.multiplier * 0.5 + 0.75;
    var recencyBoost := (7 - i) as real / 7.0;
    var boost := 1.0 + recencyBoost;
    DayVolumeBounds(baseVolume, multiplier, boost);
    var volume := baseVolume * multiplier * boost;
    assert 428.0 < volume;
    assert volume < 3750.0;
    volume.Floor
  }

  /** `Math.floor(v * (lo + r * width))`: a share of `v` between the fractions
      `lo` and `lo + width`, up to the rounding down. */
  function Share(v: int, r: real, lo: real, width: real): (s: int)
    requires 0 <= v && IsDraw(r) && 0.0 <= lo && 0.0 <= width
    ensures 0 <= s
    ensures v as real * lo - 1.0 < s as real
    ensures s as real <= v as real * (lo + width)
  {
    ScaleBelow(0.0, lo + r * width, v as real);
    ScaleBelow(lo, lo + r * width, v as real);
    ScaleBelow(r, 1.0, width);
    ScaleBelow(lo + r * width, lo + width, v as real);
    (v as real * (lo + r * width)).Floor
  }

  /** Day `i` of the history: 30-50% positive, 20-35% negative, the rest neutral. */
  function Day(now: int, i: nat, d: DayDraws): (day: SentimentData)
    requires i < HistoryDays && ValidDayDraws(d)
    ensures WellFormedDay(day)
    ensures day.timestamp == now - i * DayMillis
    ensures 428 <= day.totalMentions < 3750
    ensures var t := day.totalMentions as real;
            t * 0.3 - 1.0 < day.positiveCount as real <= t * 0.5
    ensures var t := day.totalMentions as real;
            t * 0.2 - 1.0 < day.negativeCount as real <= t * 0.35
  {
    var total := DayVolume(i, d);
    var positive := Share(total, d.positive, 0.3, 0.2);
    var negative := Share(total, d.negative, 0.2, 0.15);
    SentimentData(positive, negative, total - positive - negative, total, now - i * DayMillis)
  }

  /** The history built by the day loop: index 0 is the most recent day. */
  function GenerateHistory(now: int, draws: seq<DayDraws>): (h: seq<SentimentData>)
    requires |draws| == HistoryDays
    requires forall i :: 0 <= i < |draws| ==> ValidDayDraws(draws[i])
    ensures |h| == HistoryDays
    ensures AllWellFormed(h)
    ensures forall i :: 0 <= i < |h| ==> h[i].timestamp == now - i * DayMillis
    ensures forall i, j :: 0 <= i < j < |h| ==> h[j].timestamp < h[i].timestamp
  {
    seq(HistoryDays, i requires 0 <= i < HistoryDays => Day(now, i, draws[i]))
  }

  // ---------------------------------------------------------------------------
  // Sums over the history (left folds, as `reduce` computes them)

  function TotalMentions(h: seq<SentimentData>): int {
    if |h| == 0 then 0 else TotalMentions(h[..|h| - 1]) + h[|h| - 1].totalMentions
  }

  /** Sum of positive minus negative mentions. */
  function NetMentions(h: seq<SentimentData>): int {
    if |h| == 0 then 0
    else NetMentions(h[..|h| - 1]) + (h[|h| - 1].positiveCount - h[|h| - 1].negativeCount)
  }

  function DaySentiment(d: SentimentData): real
    requires d.totalMentions != 0
  {
    (d.positiveCount - d.negativeCount) as real / d.totalMentions as real
  }

  /** The `reduce` that weights each day's sentiment by its share of `total`. */
  function WeightedSentimentFold(h: seq<SentimentData>, total: real): real
    requires PositiveTotals(h) && total != 0.0
  {
    if |h| == 0 then 0.0
    else
      var last := h[|h| - 1];
      WeightedSentimentFold(h[..|h| - 1], total) + DaySentiment(last) * (last.totalMentions as real / total)
  }

  lemma DayWeightCancels(net: real, t: real, total: real)
    requires t != 0.0 && total != 0.0
    ensures net / t * (t / total) == net / total
  {
  }

  /** The mention-weighted average of daily sentiments is the ratio of net
      mentions to all mentions. */
  lemma {:induction false} WeightedSentimentIsRatio(h: seq<SentimentData>, total: real)
    requires PositiveTotals(h) && total != 0.0
    ensures WeightedSentimentFold(h, total) == NetMentions(h) as real / total
  {
    if |h| > 0 {
      var init, last := h[..|h| - 1], h[|h| - 1];
      assert PositiveTotals(init);
      WeightedSentimentIsRatio(init, total);
      DayWeightCancels((last.positiveCount - last.negativeCount) as real, last.totalMentions as real, total);
    }
  }

  /** Net mentions never exceed all mentions in absolute value. */
  lemma {:induction false} NetWithinTotal(h: seq<SentimentData>)
    requires AllWellFormed(h)
    ensures -TotalMentions(h) <= NetMentions(h) <= TotalMentions(h)
    ensures |h| > 0 ==> TotalMentions(h) > 0
  {
    if |h| > 0 {
      NetWithinTotal(h[..|h| - 1]);
    }
  }

  lemma RatioInUnitRange(n: real, t: real)
    requires t > 0.0 && -t <= n <= t
    ensures -1.0 <= n / t <= 1.0
  {
    assert n / t * t == n;
  }

  // ---------------------------------------------------------------------------
  // Metrics

  function VolumeChange(recent: int, oldest: int): (c: real)
    requires oldest > 0
    ensures c * oldest as real == (recent - oldest) as real * 100.0
    ensures recent >= 0 ==> c >= -100.0
    ensures c > 0.0 <==> recent > oldest
  {
    var q := (recent - oldest) as real / oldest as real;
    assert q * oldest as real == (recent - oldest) as real
        && (recent >= 0 ==> q >= -1.0)
        && (q > 0.0 <==> recent > oldest) by {
      assert q * oldest as real == (recent - oldest) as real;
      if q < -1.0 {
        ScaleBelow(q, -1.0, oldest as real);
      }
      if q > 0.0 {
        ScaleBelow(0.0, q, oldest as real);
      } else {
        ScaleBelow(q, 0.0, oldest as real);
      }
    }
    q * 100.0
  }

  /** The `reduce` pair of `generateSocialData`: the mention-weighted daily
      sentiment, which is the net share of all mentions and lies in [-1, 1]. */
  function WeightedSentiment(h: seq<SentimentData>): (s: real)
    requires PositiveTotals(h)
    ensures TotalMentions(h) > 0 ==> s == NetMentions(h) as real / TotalMentions(h) as real
    ensures AllWellFormed(h) ==> -1.0 <= s <= 1.0
  {
    var totalMentions := TotalMentions(h) as real;
    if totalMentions == 0.0 then
      assert AllWellFormed(h) ==> |h| == 0 by {
        if AllWellFormed(h) {
          NetWithinTotal(h);
        }
      }
      0.0
    else
      assert WeightedSentimentFold(h, totalMentions) == NetMentions(h) as real / totalMentions by {
        WeightedSentimentIsRatio(h, totalMentions);
      }
      assert AllWellFormed(h) ==> -1.0 <= NetMentions(h) as real / totalMentions <= 1.0 by {
        if AllWellFormed(h) {
          NetWithinTotal(h);
          RatioInUnitRange(NetMentions(h) as real, totalMentions);
        }
      }
      WeightedSentimentFold(h, totalMentions)
  }

  /** The unclamped trending formula: volume change, sentiment and absolute volume. */
  function RawTrending(volumeChange: real, sentiment: real, recentVolume: int): real {
    volumeChange * 0.7 + sentiment * 50.0 + recentVolume as real / 1000.0 * 30.0
  }

  /** The trending score: the raw formula held inside [0, 100]. */
  function TrendingScore(volumeChange: real, sentiment: real, recentVolume: int): (t: real)
    ensures 0.0 <= t <= 100.0
    ensures var raw := RawTrending(volumeChange, sentiment, recentVolume);
            && (0.0 <= raw <= 100.0 ==> t == raw)
            && (raw < 0.0 ==> t == 0.0)
            && (raw > 100.0 ==> t == 100.0)
  {
    Clamp(RawTrending(volumeChange, sentiment, recentVolume), 0.0, 100.0)
  }

  /** The metrics computed from a seven-day history (index 0 = most recent). */
  function SocialMetricsOf(h: seq<SentimentData>): (m: SocialMetrics)
    requires |h| == HistoryDays && PositiveTotals(h)
    ensures m.historicalData == h
    ensures m.mentionVolume == h[0].totalMentions
    ensures m.volumeChange * h[6].totalMentions as real
            == (h[0].totalMentions - h[6].totalMentions) as real * 100.0
    ensures m.volumeChange >= -100.0
    ensures m.volumeChange > 0.0 <==> h[0].totalMentions > h[6].totalMentions
    ensures TotalMentions(h) > 0 ==> m.sentimentScore == NetMentions(h) as real / TotalMentions(h) as real
    ensures AllWellFormed(h) ==> -1.0 <= m.sentimentScore <= 1.0
    ensures 0.0 <= m.trendingScore <= 100.0
    ensures m.trendingScore == TrendingScore(m.volumeChange, m.sentimentScore, m.mentionVolume)
  {
    var recentVolume := h[0].totalMentions;
    var oldVolume := h[6].totalMentions;
    var volumeChange := VolumeChange(recentVolume, oldVolume);
    var weightedSentiment := WeightedSentiment(h);
    var trendingScore := TrendingScore(volumeChange, weightedSentiment, recentVolume);
    SocialMetrics(recentVolume, volumeChange, weightedSentiment, trendingScore, h)
  }

  /** `generateSocialData`: the simulated feed, with its 28 draws as a parameter. */
  function GenerateSocialData(now: int, draws: seq<DayDraws>): (m: SocialMetrics)
    requires |draws| == HistoryDays
    requires forall i :: 0 <= i < |draws| ==> ValidDayDraws(draws[i])
    ensures |m.historicalData| == HistoryDays
    ensures AllWellFormed(m.historicalData)
    ensures forall i :: 0 <= i < HistoryDays ==> m.historicalData[i].timestamp == now - i * DayMillis
    ensures m.mentionVolume == m.historicalData[0].totalMentions
    ensures -1.0 <= m.sentimentScore <= 1.0
    ensures 0.0 <= m.trendingScore <= 100.0
  {
    SocialMetricsOf(GenerateHistory(now, draws))
  }

  // ---------------------------------------------------------------------------
  // Social breakout score

  /** `getSocialBreakoutScore`: 40% clamped volume change, 30% sentiment mapped
      to 0-100, 30% trending score. */
  function SocialBreakoutScore(m: SocialMetrics): (score: real)
    ensures -1.0 <= m.sentimentScore <= 1.0 && 0.0 <= m.trendingScore <= 100.0 ==> 0.0 <= score <= 100.0
    ensures score >= (m.sentimentScore + 1.0) * 15.0 + m.trendingScore * 0.3
    ensures score <= 40.0 + (m.sentimentScore + 1.0) * 15.0 + m.trendingScore * 0.3
  {
    var volumeScore := Clamp(m.volumeChange, 0.0, 100.0) * 0.4;
    var sentimentScore := (m.sentimentScore + 1.0) * 50.0 * 0.3;
    var trendingScore := m.trendingScore * 0.3;
    volumeScore + sentimentScore + trendingScore
  }

  /** Raising any of the three inputs never lowers the social breakout score. */
  lemma SocialBreakoutScoreMonotone(a: SocialMetrics, b: SocialMetrics)
    requires a.volumeChange <= b.volumeChange
    requires a.sentimentScore <= b.sentimentScore
    requires a.trendingScore <= b.trendingScore
    ensures SocialBreakoutScore(a) <= SocialBreakoutScore(b)
  {
  }

  /** The generated feed always yields a social score in [0, 100]. */
  lemma GeneratedSocialScoreInRange(now: int, draws: seq<DayDraws>)
    requires |draws| == HistoryDays
    requires forall i :: 0 <= i < |draws| ==> ValidDayDraws(draws[i])
    ensures 0.0 <= SocialBreakoutScore(GenerateSocialData(now, draws)) <= 100.0
  {
  }
}

=== FILE: stable_sort.dfy ===
/** A stable sort by a real-valued key, largest key first: what
    `Array.prototype.sort` with the comparator `(a, b) => key(b) - key(a)`
    computes (the ECMAScript sort is stable), written as insertion sort on
    sequences. */
module StableSort {

  /** Keys never increase along `s`. */
  predicate SortedDesc<T>(s: seq<T>, key: T -> real) {
    forall i, j :: 0 <= i < j < |s| ==> key(s[i]) >= key(s[j])
  }

  /** The elements of `s` whose key is exactly `k`, in their order in `s`.
      A sort is stable when it leaves every such subsequence unchanged. */
  function WithKey<T>(s: seq<T>, key: T -> real, k: real): seq<T> {
    if |s| == 0 then [] else (if key(s[0]) == k then [s[0]] else []) + WithKey(s[1..], key, k)
  }

  /** Inserts `x` before the first element whose key is not larger than its own. */
  function Insert<T>(x: T, s: seq<T>, key: T -> real): (r: seq<T>)
    requires SortedDesc(s, key)
    ensures |r| == |s| + 1
    ensures r[0] == x || (|s| > 0 && r[0] == s[0])
    ensures SortedDesc(r, key)
    ensures multiset(r) == multiset(s) + multiset{x}
  {
    if |s| == 0 || key(x) >= key(s[0]) then
      [x] + s
    else
      var rest := Insert(x, s[1..], key);
      assert s == [s[0]] + s[1..];
      assert forall j :: 0 <= j < |rest| ==> key(s[0]) >= key(rest[j]) by {
        assert key(s[0]) >= key(rest[0]);
        forall j | 0 <= j < |rest|
          ensures key(s[0]) >= key(rest[j])
        {
          if j > 0 {
            assert key(rest[0]) >= key(rest[j]);
          }
        }
      }
      [s[0]] + rest
  }

  /** Insertion puts `x` in front of the elements sharing its key, so every
      same-key subsequence either gains `x` at its head or is unchanged. */
  lemma {:induction false} InsertStable<T>(x: T, s: seq<T>, key: T -> real, k: real)
    requires SortedDesc(s, key)
    ensures WithKey(Insert(x, s, key), key, k) == (if key(x) == k then [x] else []) + WithKey(s, key, k)
  {
    var r := Insert(x, s, key);
    if |s| == 0 || key(x) >= key(s[0]) {
      assert r == [x] + s;
      assert r[1..] == s;
    } else {
      var rest := Insert(x, s[1..], key);
      assert r == [s[0]] + rest;
      assert r[1..] == rest;
      InsertStable(x, s[1..], key, k);
      var head := if key(s[0]) == k then [s[0]] else [];
      assert WithKey(r, key, k) == head + WithKey(rest, key, k);
      assert WithKey(s, key, k) == head + WithKey(s[1..], key, k);
    }
  }

  /** Sorts `s` by descending key, keeping equal-key elements in input order. */
  function SortDesc<T>(s: seq<T>, key: T -> real): (r: seq<T>)
    ensures |r| == |s|
    ensures SortedDesc(r, key)
    ensures multiset(r) == multiset(s)
  {
    if |s| == 0 then []
    else
      assert s == [s[0]] + s[1..];
      Insert(s[0], SortDesc(s[1..], key), key)
  }

  /** The sort is stable: each same-key subsequence comes out as it went in. */
  lemma {:induction false} SortDescStable<T>(s: seq<T>, key: T -> real, k: real)
    ensures WithKey(SortDesc(s, key), key, k) == WithKey(s, key, k)
  {
    if |s| > 0 {
      SortDescStable(s[1..], key, k);
      InsertStable(s[0], SortDesc(s[1..], key), key, k);
    }
  }

  /** Cutting a sequence cuts each of its same-key subsequences to a prefix. */
  lemma {:induction false} WithKeyOfPrefix<T>(s: seq<T>, key: T -> real, k: real, n: nat)
    requires n <= |s|
    ensures WithKey(s[..n], key, k) <= WithKey(s, key, k)
  {
    if n > 0 {
      WithKeyOfPrefix(s[1..], key, k, n - 1);
      assert s[..n][1..] == s[1..][..n - 1];
    }
  }

  /** In a descending sequence no element after position `m` has a larger key
      than one before it. */
  lemma PrefixDominates<T>(sorted: seq<T>, key: T -> real, m: nat)
    requires SortedDesc(sorted, key) && m <= |sorted|
    ensures forall x, y :: x in sorted[m..] && y in sorted[..m] ==> key(y) >= key(x)
  {
    forall x, y | x in sorted[m..] && y in sorted[..m]
      ensures key(y) >= key(x)
    {
      var j :| 0 <= j < |sorted[m..]| && sorted[m..][j] == x;
      var i :| 0 <= i < |sorted[..m]| && sorted[..m][i] == y;
      assert sorted[i] == y && sorted[m + j] == x;
    }
  }

  /** What a prefix leaves out of a sequence is exactly its suffix. */
  lemma PrefixSplit<T>(sorted: seq<T>, m: nat)
    requires m <= |sorted|
    ensures multiset(sorted) == multiset(sorted[..m]) + multiset(sorted[m..])
    ensures forall x :: x in multiset(sorted) - multiset(sorted[..m]) ==> x in sorted[m..]
  {
    assert sorted == sorted[..m] + sorted[m..];
  }

  /** The first `n` elements by descending key: sort, then keep a prefix. */
  function TopByKey<T>(s: seq<T>, key: T -> real, n: nat): (top: seq<T>)
    ensures |top| == if |s| < n then |s| else n
    ensures SortedDesc(top, key)
    ensures multiset(top) <= multiset(s)
    ensures |s| <= n ==> multiset(top) == multiset(s)
    ensures forall x, y :: x in multiset(s) - multiset(top) && y in top ==> key(y) >= key(x)
  {
    var sorted := SortDesc(s, key);
    var m := if |sorted| < n then |sorted| else n;
    PrefixSplit(sorted, m);
    PrefixDominates(sorted, key, m);
    sorted[..m]
  }

  /** Each same-key subsequence of the kept prefix is a prefix of the input's. */
  lemma TopByKeyStable<T>(s: seq<T>, key: T -> real, n: nat, k: real)
    ensures WithKey(TopByKey(s, key, n), key, k) <= WithKey(s, key, k)
  {
    var sorted := SortDesc(s, key);
    var m := if |sorted| < n then |sorted| else n;
    SortDescStable(s, key, k);
    WithKeyOfPrefix(sorted, key, k, m);
  }

  /** Sequences with the same multiset hold the same elements: each element
      of either one occurs in the other. */
  lemma SameMembers<T>(a: seq<T>, b: seq<T>)
    requires multiset(a) == multiset(b)
    ensures forall i :: 0 <= i < |a| ==> a[i] in b
    ensures forall j :: 0 <= j < |b| ==> b[j] in a
  {
    forall i | 0 <= i < |a|
      ensures a[i] in b
    {
      assert a[i] in multiset(a);
    }
    forall j | 0 <= j < |b|
      ensures b[j] in a
    {
      assert b[j] in multiset(b);
    }
  }

  /** The tag of each element, in order. */
  function Tags<T, L>(s: seq<T>, tag: T -> L): (r: seq<L>)
    ensures |r| == |s|
    ensures forall j :: 0 <= j < |s| ==> r[j] == tag(s[j])
  {
    seq(|s|, j requires 0 <= j < |s| => tag(s[j]))
  }

  /** Reordering keeps coverage: when `a` is tagged with `labels` in order,
      a permutation `b` of `a` carries exactly the same tags. */
  lemma ReorderKeepsLabels<T, L>(a: seq<T>, b: seq<T>, tag: T -> L, labels: seq<L>)
    requires Tags(a, tag) == labels
    requires multiset(a) == multiset(b)
    ensures forall x :: x in labels <==> x in Tags(b, tag)
  {
    SameMembers(a, b);
    var tb := Tags(b, tag);
    forall x | x in labels
      ensures x in tb
    {
      var i :| 0 <= i < |labels| && labels[i] == x;
      assert a[i] in b;
      var j :| 0 <= j < |b| && b[j] == a[i];
      assert tb[j] == x;
    }
    forall x | x in tb
      ensures x in labels
    {
      var j :| 0 <= j < |tb| && tb[j] == x;
      assert b[j] in a;
      var i :| 0 <= i < |a| && a[i] == b[j];
      assert labels[i] == x;
    }
  }

  /** Reordering keeps any property every element has. */
  lemma ReorderKeepsProperty<T>(a: seq<T>, b: seq<T>, p: T -> bool)
    requires forall i :: 0 <= i < |a| ==> p(a[i])
    requires multiset(a) == multiset(b)
    ensures forall j :: 0 <= j < |b| ==> p(b[j])
  {
    SameMembers(a, b);
    forall j | 0 <= j < |b|
      ensures p(b[j])
    {
      var i :| 0 <= i < |a| && a[i] == b[j];
    }
  }
}
